=== FILE: README.md ===
# Dapper-Dasher, modelled in Dafny

Dapper-Dasher is a small side-scrolling raylib game in one C++ file. The
character ("scarfy") stands on the bottom of a 512 by 380 window. It can jump
with space and walk with A and D. Ten animated obstacles ("nebulae") scroll in
from the right at 200 pixels per second, drawn in front of three parallax
background layers. An obstacle's padded box meeting the character's box loses the game. Outlasting the last
obstacle wins it: the finish line reaches the left edge.

This project models the game's logic as pure functions over an immutable
world record:

- `CArith` gives C++ integer semantics: `/` and `%` truncate toward zero, and
  a float-to-`int` conversion drops the fraction.
- `Sprite` holds the sprite record `AnimData`, the ground test and the
  sprite-sheet frame animator `updateAnimData`.
- `SpriteSheet` proves what the animator's cell selection and frame counter
  do over a sheet.
- `Scroll` is one wrapping background layer.
- `Kinematics` covers gravity, grounding and the jump on the integer
  velocity, and the A/D movement with its edge snapping.
- `Collision` holds the padded obstacle box and the sticky collision flag.
- `Game` has the `World` record, the start state, one loop pass `Step`, the
  outcome (lost, won or in progress), a validity invariant, and runs over
  many ticks.

The following are inputs to the step:
- the frame time `dt`;
- the key state: space pressed, A held, D held;
- the loaded textures' pixel sizes;
- raylib's rectangle test `CheckCollisionRecs`, as a function parameter `collides`.

Floating-point values are modelled as `real`.

What the code does, as opposed to what one might expect:
- The character's x is not clamped to the window. The A and D keys snap x to
  an edge only once x is already at or past it. A step that starts just
  inside an edge therefore ends up to 10 pixels outside the window; the next
  tick with A (or D) still held snaps it back. `LeftEdgeOvershoot` and `RightEdgeOvershoot` show this.
  What does hold is `MoveStaysNearWindow`: x never gets more than one step
  past either edge.
- Winning does not end the game logic. The collision test keeps running after
  the finish line passes 0, so a won game becomes a lost one if an obstacle
  then meets the character (`WinIsNotFinal`). Losing is final, and a finished
  game never goes back to in progress (`OutcomeIsFinal`).
- The animator's timer never exceeds the frame interval after a call. It grows
  by `dt` below the interval and is reset to exactly 0 at or past it, so no
  time is carried over and no frames are caught up (`NoCatchUp`).
- Landing never puts the character back on the ground line. Gravity can carry
  it below the line on the tick it lands, and the `>=` ground test keeps it
  grounded there, so nothing lifts it back up. If it sits deeper than one
  tick's rise (800 pixels per second times `dt`), a jump does not get it off the
  ground. The next tick still finds it grounded and resets the velocity to 0,
  so the jump is lost (`SunkJumpSwallowed`).
- The cell shown after an advance is the frame being left. The counter moves
  on one frame afterwards (`ShownCellLagsCounter`).

## Model

| member | source | states |
|---|---|---|
| CArith.Quot | main.cpp:26 | C++ integer `/`: the magnitude is the quotient of the magnitudes, and the result is non-negative when the operands' signs agree and non-positive otherwise |
| CArith.Rem | main.cpp:25-29 | C++ integer `%`: `a == b*Quot(a,b) + r` with `|r| < |b|`, and r takes the sign of the dividend |
| CArith.TruncMatchesEuclid | main.cpp:25-29 | for a non-negative dividend and a positive divisor, C++ `/` and `%` agree with Euclidean division, so a frame counter in range behaves as plain modular arithmetic |
| CArith.TruncToInt | main.cpp:149 | the implicit float-to-`int` conversion drops the fraction toward zero: the result is within one of the exact value, on the side of zero |
| Sprite.IsOnGround | main.cpp:12-15 | grounded exactly when the sprite's bottom edge is at or below the window's bottom |
| Sprite.UpdateAnimData | main.cpp:17-33 | position, interval and cell size never change. Below the interval only the timer grows. At or past it the timer is exactly 0, the counter is `(frame+1) % total` and the cell is that of the frame being left. A counter in `[0,total)` stays there, and the timer stays in `[0, updateTime)` |
| SpriteSheet.CellInGrid | main.cpp:25-26 | a counter in the cycle selects column `[0,maxFrame)` and a row no further than the sheet's last row |
| SpriteSheet.CellRoundTrip | main.cpp:25-26 | `row*maxFrame + column` gives back the frame counter: the row-major read-back inverts the cell selection |
| SpriteSheet.CellsDistinct | main.cpp:25-26 | distinct frames of one cycle are drawn from distinct cells |
| SpriteSheet.ShownCellLagsCounter | main.cpp:23-29 | after an advance the cell shown decodes to the frame just left, and the counter is one further on modulo the cycle |
| SpriteSheet.CellOnGrid | main.cpp:25-26 | after an advance, `rec.x` is a whole number of cell widths in `[0, (maxFrame-1)*width]` and `rec.y` a whole number of cell heights within the sheet's rows |
| SpriteSheet.AnimationStaysOnGrid | main.cpp:17-33 | any animator call keeps a source rectangle that is a cell of the sheet's grid on that grid: an advance picks a fresh cell on it, and otherwise the rectangle is unchanged |
| SpriteSheet.NoCatchUp | main.cpp:20-30 | every step that reaches the interval gives the same result, however long it is: large steps skip no extra frames |
| SpriteSheet.EachLongStepAdvancesOne | main.cpp:20-30 | n calls whose steps are each at least the interval advance the counter by exactly n frames round the cycle |
| Scroll.ScrollLayer | main.cpp:106-122 | reaching `-2*width` resets the offset to exactly 0, and short of it the offset moves by `speed*dt`. The layer moves only left apart from the wrap, and an offset in `(-2*width, 0]` stays there |
| Scroll.ScrollsUntilWrap | main.cpp:106-122 | from 0, after n ticks that have not reached the wrap point, the offset is exactly `-n*speed*dt` |
| Scroll.WrapsToZero | main.cpp:106-122 | the first tick whose travel reaches two widths puts the layer back at exactly 0 |
| Scroll.MidgroundPeriod | main.cpp:112-116 | at 60 ticks per second, an 800-pixel middle layer is back at 0 after exactly 2400 ticks |
| Scroll.MidgroundNoEarlyWrap | main.cpp:112-116 | that same layer is strictly left of 0 on every tick before the 2400th |
| Kinematics.ApplyGravity | main.cpp:141-151 | grounded: velocity 0 and not in the air. Airborne: in the air, with the velocity the truncated sum of velocity and `gravity*dt`, which never decreases for `dt >= 0` |
| Kinematics.Jump | main.cpp:153-158 | the jump velocity is added only when the key is pressed and the character is not in the air; otherwise nothing changes |
| Kinematics.UpdateVertical | main.cpp:141-158 | the tick's vertical update: in the air exactly when not grounded. Grounded, the velocity is 0, or the jump velocity if space was pressed. Airborne, it is the gravity update alone, and the key has no effect |
| Kinematics.JumpOnlyFromGround | main.cpp:141-158 | pressing space changes the tick's vertical update exactly when the character starts the tick on the ground: on the ground it always matters, in the air never |
| Kinematics.MoveLeft | main.cpp:161-171 | A at or left of 0 snaps to 0, and otherwise moves 10 left. The result is never a full step past the left edge |
| Kinematics.MoveRight | main.cpp:172-182 | D at or right of the limit snaps to the limit, and otherwise moves 10 right. The result is never a full step past the right edge |
| Kinematics.Move | main.cpp:161-182 | no key leaves x alone, A alone is `MoveLeft` and D alone is `MoveRight`. With both held, D acts on the result of A |
| Kinematics.MoveStaysNearWindow | main.cpp:161-182 | whatever keys are held, x stays strictly within one step of the window's edges |
| Kinematics.LeftEdgeHolds | main.cpp:161-171 | holding A for any number n >= 1 of ticks, starting at or past the left edge, leaves x at exactly 0 |
| Kinematics.RightEdgeHolds | main.cpp:172-182 | holding D for any number n >= 1 of ticks, starting at or past the right edge, leaves x at exactly the limit |
| Kinematics.LeftEdgeOvershoot | main.cpp:161-171 | from x = 5, A moves to -5, left of the window, and only the next tick snaps it to 0 |
| Kinematics.RightEdgeOvershoot | main.cpp:172-182 | two pixels short of the right limit, D lands eight pixels past it, and the next tick snaps it back |
| Collision.PaddedRect | main.cpp:209-215 | each edge of the obstacle's box moves inward by exactly 50, and the box keeps its centre |
| Collision.CharacterRect | main.cpp:216-221 | the character's box is its full on-screen sprite: its position and its cell size, unpadded |
| Collision.PaddingOnlyOnObstacles | main.cpp:209-221 | for the same sprite, the padded box is the full box shrunk by 50 on every side, so only the obstacles are padded |
| Collision.PaddedExample | main.cpp:209-215 | a 100 by 100 obstacle at (100,100) pads down to the empty box at (150,150) |
| Collision.LatchCollision | main.cpp:207-226 | after the loop over the obstacles the flag is set exactly when it was already set or some obstacle's padded box meets the character's box |
| Collision.CollisionLatches | main.cpp:222-225 | a set flag stays set whatever the obstacles are |
| Game.InitialNebula | main.cpp:54-65 | obstacle i starts at x = `512 + 300*i` with its bottom edge exactly on the ground line (y = 380 less its height), with an eighth of the sheet as its cell, frame 0 and a fresh 0.05 s timer |
| Game.InitialScarfy | main.cpp:79-86 | the character starts centred on half the window width with its bottom edge exactly on the ground line, with a sixth of the sheet's width as its cell, frame 0 and a fresh 1/12 s timer |
| Game.InitialWorld | main.cpp:51-94 | ten obstacles, obstacle i being exactly `InitialNebula`'s obstacle i: at x = `512 + 300*i`, on the ground, at frame 0 with a fresh timer. The character is `InitialScarfy`'s, is on the ground and not in the air, with velocity 0. All three offsets are 0, the finish line is at `512 + 9*300 = 3212`, and there is no collision |
| Game.MoveNebulae | main.cpp:184-188 | every obstacle's x moves by `-200*dt`, and nothing else about it changes |
| Game.AnimateNebulae | main.cpp:202-205 | every obstacle gets exactly one animator call on the 60-frame, 8-wide sheet |
| Game.ScrollBackgrounds | main.cpp:105-122 | only the three offsets change. The far, middle and near layers each take one `ScrollLayer` tick at 20, 40 and 80 pixels per second over their own texture's width, and each keeps to its wrap range |
| Game.UpdateCharacter | main.cpp:140-199 | in the air exactly when not grounded at the start of the tick. In the air, only the position changes and the animation is frozen. Grounded, the velocity is 0 or the jump velocity, and the moved sprite gets one animator call on the 6-frame sheet. The height integrates the new velocity, and x is the A-then-D movement |
| Game.UpdateNebulae | main.cpp:184-205 | the obstacles all move horizontally by the shared velocity, and each is then animated once |
| Game.Step | main.cpp:97-226 | each background layer takes its `ScrollLayer` tick, and the obstacles are exactly `UpdateNebulae` of the old ones (moved, then animated). The obstacle count is kept, every obstacle and the finish line move by the same `-200*dt`, the collision flag latches and is raised exactly by a hit this tick, and the character follows `UpdateCharacter` |
| Game.FinishLineTracksLastObstacle | main.cpp:184-191 | a finish line at the last obstacle's x is still there after the tick |
| Game.OutcomeOf | main.cpp:228-237 | lost exactly when the flag is set. Won exactly when it is not and the finish line is at or left of 0. In progress otherwise |
| Game.OutcomeIsFinal | main.cpp:222-237 | a lost game stays lost, and a finished game never returns to in progress |
| Game.WinIsNotFinal | main.cpp:222-237 | a won game is lost on the next tick exactly when an obstacle's padded box meets the character, and is still won otherwise |
| Game.InitialValid | main.cpp:51-94 | for textures whose sheet cells are at least a pixel, the start state satisfies the world invariant: offsets in range, animations in their cycles with their source rectangles on their sheets' grids, character near the window, finish line at the last obstacle |
| Game.StepPreservesValid | main.cpp:97-226 | a tick of non-negative length keeps the world invariant, including that every sprite's source rectangle is a cell of its sheet |
| Game.CharacterStaysInCycle | main.cpp:140-199 | through the character's part of a tick, its frame counter and timer stay in their cycle and its source rectangle stays on the 6-wide grid, whether it is frozen in the air or animated on the ground |
| Game.NebulaStaysInCycle | main.cpp:184-205 | an obstacle moved and then animated keeps its frame counter and timer in their cycle and its source rectangle on the 8-wide, 8-row grid |
| Game.RestingStaysPut | main.cpp:141-194 | grounded without a jump, the velocity stays 0, the height does not change and the character is not in the air |
| Game.JumpLeavesGround | main.cpp:141-194 | a jump from ground level ends the tick with velocity -800, above the ground, so the next tick finds the character in the air |
| Game.SunkJumpSwallowed | main.cpp:141-194 | a jump from deeper below the ground line than one tick's rise ends the tick still on the ground, so the next tick is grounded and its velocity is 0, or a fresh jump velocity if space is pressed again |
| Game.RunPreservesValid | main.cpp:97-226 | every run of non-negative ticks keeps the world invariant, so every frame drawn comes from a cell of its sheet |
| Game.RunMovesFinishLine | main.cpp:191 | over a run the finish line moves by `-200` times the elapsed time |
| Game.RunKeepsCollision | main.cpp:222-225 | a collision is still recorded at the end of any later run |
| Game.WinTime | main.cpp:233-236 | from the start, a run without a collision is won exactly when 16.06 seconds have elapsed |

## Left out

- Drawing is not modelled: the two copies of every layer at scale 2, the obstacles, the character and the text overlays (main.cpp:124-138, 228-247). It has no effect on state. `OutcomeOf` only names which overlay would be drawn.
- Window creation, texture loading and unloading, and the window-close loop condition are left out, as are `SetTargetFPS` and `GetFrameTime` (raylib I/O). The texture sizes form the `Textures` parameter, and the frame time is the `dt` of each step.
- `IsKeyPressed` and `IsKeyDown` are input. Their values for a tick form the `Keys` parameter.
- The internals of `CheckCollisionRecs` are not modelled: it belongs to raylib and its source is not part of this model. It is the parameter `collides`, and nothing about whether touching edges count as overlap is claimed.
- IEEE single-precision rounding is not modelled: positions, times and offsets are `real`. The float-to-`int` truncation of the velocity is kept (`TruncToInt`); only the rounding of the float sum before it is dropped.
- 32-bit `int` overflow is not modelled, for example `frame++` at `INT_MAX` or the velocity. The model's integers are unbounded. The frame counters stay inside their cycles (`Game.StepPreservesValid`), so they cannot wrap.

=== FILE: carith.dfy ===
/**
 C++ integer semantics the game relies on, written out over Dafny's
 unbounded `int` and `real`: `/` and `%` on `int` truncate toward zero
 (Dafny's own operators are Euclidean), and converting a floating-point
 value to `int` drops the fractional part toward zero.
 */
module CArith {

  function Abs(a: int): nat
  {
    if a < 0 then -a else a
  }

  /** C++ `a / b` on `int`: the exact quotient rounded toward zero. */
  function Quot(a: int, b: int): (q: int)
    requires b != 0
    ensures Abs(q) == Abs(a) / Abs(b)
    ensures (a < 0) == (b < 0) ==> q >= 0
    ensures (a < 0) != (b < 0) ==> q <= 0
  {
    var m: int := Abs(a) / Abs(b);
    DivNonneg(Abs(a), Abs(b));
    if (a < 0) == (b < 0) then m else -m
  }

  lemma DivNonneg(n: int, d: int)
    requires n >= 0 && d > 0
    ensures n / d >= 0
  {
  }

  /** C++ `a % b` on `int`: the remainder that pairs with `Quot`, carrying the sign of `a`. */
  function Rem(a: int, b: int): (r: int)
    requires b != 0
    ensures a == b * Quot(a, b) + r
    ensures Abs(r) < Abs(b)
    ensures a >= 0 ==> r >= 0
    ensures a <= 0 ==> r <= 0
  {
    RemFacts(a, b);
    a - b * Quot(a, b)
  }

  lemma RemFacts(a: int, b: int)
    requires b != 0
    ensures var r := a - b * Quot(a, b);
      Abs(r) < Abs(b) && (a >= 0 ==> r >= 0) && (a <= 0 ==> r <= 0)
  {
    var A: int, B: int := Abs(a), Abs(b);
    var m: int, k: int := A / B, A % B;
    Euclid(A, B);
    var q := Quot(a, b);
    if a >= 0 && b > 0 {
      assert a - b * q == k;
    } else if a >= 0 {
      NegTimesNeg(b, q, B, m);
      assert a - b * q == k;
    } else if b > 0 {
      TimesNeg(b, q, B, m);
      assert a - b * q == -k;
    } else {
      NegTimes(b, q, B, m);
      assert a - b * q == -k;
    }
  }

  lemma Euclid(n: int, d: int)
    requires n >= 0 && d > 0
    ensures n == d * (n / d) + n % d && 0 <= n % d < d
  {
  }

  lemma NegTimesNeg(b: int, q: int, B: int, m: int)
    requires b == -B && q == -m
    ensures b * q == B * m
  {
  }

  lemma TimesNeg(b: int, q: int, B: int, m: int)
    requires b == B && q == -m
    ensures b * q == -(B * m)
  {
  }

  lemma NegTimes(b: int, q: int, B: int, m: int)
    requires b == -B && q == m
    ensures b * q == -(B * m)
  {
  }

  /** For a non-negative dividend and a positive divisor C++ and Dafny agree. */
  lemma {:induction false} TruncMatchesEuclid(a: int, b: int)
    requires a >= 0 && b > 0
    ensures Quot(a, b) == a / b
    ensures Rem(a, b) == a % b
  {
    assert Abs(a) == a && Abs(b) == b;
  }

  /** C++ conversion of a floating-point value to `int`: the fraction is dropped toward zero. */
  function TruncToInt(x: real): (n: int)
    ensures x >= 0.0 ==> n as real <= x < n as real + 1.0
    ensures x < 0.0 ==> n as real - 1.0 < x <= n as real
  {
    if x >= 0.0 then x.Floor else -((-x).Floor)
  }

  // Facts about Dafny's own (Euclidean) `/` and `%` used by the proofs.

  lemma DivMonotone(a: int, b: int, d: int)
    requires 0 <= a <= b && 0 < d
    ensures a / d <= b / d
  {
    Euclid(a, d);
    Euclid(b, d);
    if a / d > b / d {
      MulMonotone(b / d + 1, a / d, d);
    }
  }

  lemma MulMonotone(x: int, y: int, d: int)
    requires x <= y && 0 < d
    ensures x * d <= y * d
  {
  }

  lemma ModBelow(a: int, d: int)
    requires 0 <= a < d
    ensures a % d == a
  {
  }

  lemma ModShift(x: int, n: int, d: int)
    requires 0 <= x && 0 <= n && 0 < d
    ensures (x % d + n) % d == (x + n) % d
  {
    Euclid(x, d);
    Euclid(x % d + n, d);
    var q, y := x / d, x % d + n;
    assert x + n == d * q + y;
    assert d * q + y == d * (q + y / d) + y % d by {
      Distribute(d, q, y / d);
    }
    DivModUnique(x + n, d, q + y / d, y % d);
  }

  lemma Distribute(d: int, a: int, b: int)
    ensures d * (a + b) == d * a + d * b
  {
  }

  /** Euclidean division has only one quotient and remainder. */
  lemma DivModUnique(n: int, d: int, q: int, r: int)
    requires 0 <= n && 0 < d && n == d * q + r && 0 <= r < d
    ensures n / d == q && n % d == r
  {
    Euclid(n, d);
    var q0 := n / d;
    if q0 > q {
      MulMonotone(q + 1, q0, d);
    } else if q0 < q {
      MulMonotone(q0 + 1, q, d);
    }
  }
}

=== FILE: collision.dfy ===
/**
 The character-versus-obstacle test. Each obstacle's box is shrunk by a fixed
 margin on every side before it is compared with the character's full box, and
 a hit sets a flag that nothing ever clears. The rectangle-overlap test itself
 belongs to raylib and is a parameter `collides` here.
 */
module Collision {
  import opened Sprite

  /** Margin taken off every side of an obstacle's box, pixels. */
  const Pad: real := 50.0

  /** The obstacle's on-screen box with `Pad` removed from each side. */
  function PaddedRect(nebula: AnimData): (r: Rect)
    // each edge moves inward by exactly Pad
    ensures r.x == nebula.pos.x + Pad && r.y == nebula.pos.y + Pad
    ensures r.x + r.width == nebula.pos.x + nebula.rec.width - Pad
    ensures r.y + r.height == nebula.pos.y + nebula.rec.height - Pad
    // so the box keeps its centre
    ensures 2.0 * r.x + r.width == 2.0 * nebula.pos.x + nebula.rec.width
    ensures 2.0 * r.y + r.height == 2.0 * nebula.pos.y + nebula.rec.height
  {
    Rect(nebula.pos.x + Pad, nebula.pos.y + Pad, nebula.rec.width - 2.0 * Pad, nebula.rec.height - 2.0 * Pad)
  }

  /** The character's on-screen box, unpadded. */
  function CharacterRect(character: AnimData): (r: Rect)
    ensures r.x == character.pos.x && r.y == character.pos.y
    ensures r.width == character.rec.width && r.height == character.rec.height
  {
    Rect(character.pos.x, character.pos.y, character.rec.width, character.rec.height)
  }

  /**
   The padding is one-sided: the same sprite's padded box is its full box
   shrunk by `Pad` on every side.
   */
  lemma PaddingOnlyOnObstacles(a: AnimData)
    ensures var full, padded := CharacterRect(a), PaddedRect(a);
      && padded.x == full.x + Pad && padded.y == full.y + Pad
      && padded.width == full.width - 2.0 * Pad && padded.height == full.height - 2.0 * Pad
  {
  }

  /** Some obstacle's padded box meets `target`. */
  ghost predicate AnyHit(nebulae: seq<AnimData>, target: Rect, collides: (Rect, Rect) -> bool)
  {
    exists i :: 0 <= i < |nebulae| && collides(PaddedRect(nebulae[i]), target)
  }

  /**
   The loop over the obstacles: the flag ends up set exactly when it was set
   already or some obstacle's padded box meets the character's box.
   */
  function LatchCollision(flag: bool, nebulae: seq<AnimData>, target: Rect, collides: (Rect, Rect) -> bool): (r: bool)
    ensures r <==> flag || AnyHit(nebulae, target, collides)
    decreases |nebulae|
  {
    if |nebulae| == 0 then flag
    else
      var flag := if collides(PaddedRect(nebulae[0]), target) then true else flag;
      var rest := LatchCollision(flag, nebulae[1..], target, collides);
      assert AnyHit(nebulae[1..], target, collides) ==> AnyHit(nebulae, target, collides) by {
        if AnyHit(nebulae[1..], target, collides) {
          var i :| 0 <= i < |nebulae[1..]| && collides(PaddedRect(nebulae[1..][i]), target);
          assert nebulae[1..][i] == nebulae[i + 1];
        }
      }
      assert AnyHit(nebulae, target, collides) && !collides(PaddedRect(nebulae[0]), target)
        ==> AnyHit(nebulae[1..], target, collides) by {
        if AnyHit(nebulae, target, collides) && !collides(PaddedRect(nebulae[0]), target) {
          var i :| 0 <= i < |nebulae| && collides(PaddedRect(nebulae[i]), target);
          assert i > 0 && nebulae[1..][i - 1] == nebulae[i];
        }
      }
      rest
  }

  /** Once set the flag stays set, whatever the obstacles do. */
  lemma CollisionLatches(nebulae: seq<AnimData>, target: Rect, collides: (Rect, Rect) -> bool)
    ensures LatchCollision(true, nebulae, target, collides)
  {
  }

  /**
   A 100 by 100 obstacle at (100, 100) shrinks to the empty box at (150, 150);
   it is that box, not the full sprite, that is compared with the character.
   */
  lemma PaddedExample(rec: Rect)
    requires rec.width == 100.0 && rec.height == 100.0
    ensures PaddedRect(AnimData(rec, Vec2(100.0, 100.0), 0, 0.05, 0.0)) == Rect(150.0, 150.0, 0.0, 0.0)
  {
  }
}

=== FILE: game.dfy ===
/**
 The per-tick update of the game loop as a pure step over an explicit world
 record: scroll the three layers, update the character's velocity, move it,
 move the obstacles and the finish line, animate, test for collisions, and
 read off the outcome. Frame time, key state and raylib's rectangle test are
 inputs; drawing is not modelled.
 */
module Game {
  import opened CArith
  import opened Sprite
  import opened SpriteSheet
  import opened Scroll
  import opened Kinematics
  import opened Collision

  const WindowWidth: int := 512
  const WindowHeight: int := 380

  const NebulaCount: nat := 10
  /** Horizontal gap between consecutive obstacles at the start, pixels. */
  const NebulaSpacing: int := 300
  /** The one velocity every obstacle and the finish line move at, pixels per second. */
  const NebulaVelocity: int := -200
  const NebulaFrames: int := 60
  const NebulaPerRow: int := 8
  const NebulaUpdateTime: real := 0.05

  const ScarfyFrames: int := 6
  const ScarfyPerRow: int := 6
  const ScarfyUpdateTime: real := 1.0 / 12.0

  /** Pixel sizes of the loaded textures, known only once the images are read. */
  datatype Textures = Textures(
    background: int, midground: int, foreground: int,
    nebulaWidth: int, nebulaHeight: int,
    scarfyWidth: int, scarfyHeight: int)

  /** Key state for one tick: space pressed this tick, A held, D held. */
  datatype Keys = Keys(jump: bool, left: bool, right: bool)

  /** Everything the loop carries from one tick to the next. */
  datatype World = World(
    bgX: real, mgX: real, fgX: real,
    scarfy: AnimData,
    velocity: int,
    inAir: bool,
    nebulae: seq<AnimData>,
    finishLine: real,
    collision: bool)

  /** What the tick's text overlay reports. */
  datatype Outcome = InProgress | Lost | Won

  /** Obstacle `i` before the first tick: off the right edge, 300 pixels after the one before, on the ground. */
  function InitialNebula(tex: Textures, i: int): (r: AnimData)
    ensures r.pos.x == (WindowWidth + i * NebulaSpacing) as real
    // standing exactly on the ground line
    ensures r.pos.y + r.rec.height == WindowHeight as real && IsOnGround(r, WindowHeight)
    ensures r.rec == Rect(0.0, 0.0, Quot(tex.nebulaWidth, 8) as real, Quot(tex.nebulaHeight, 8) as real)
    ensures r.frame == 0 && r.updateTime == NebulaUpdateTime && r.runningTime == 0.0
  {
    var w, h := Quot(tex.nebulaWidth, 8), Quot(tex.nebulaHeight, 8);
    AnimData(Rect(0.0, 0.0, w as real, h as real),
             Vec2((WindowWidth + i * NebulaSpacing) as real, (WindowHeight - h) as real),
             0, NebulaUpdateTime, 0.0)
  }

  /** The character before the first tick: centred horizontally, standing on the ground. */
  function InitialScarfy(tex: Textures): (r: AnimData)
    // centred: the sprite's middle is at half the window width
    ensures r.pos.x + r.rec.width / 2.0 == (WindowWidth / 2) as real
    // standing exactly on the ground line
    ensures r.pos.y + r.rec.height == WindowHeight as real && IsOnGround(r, WindowHeight)
    ensures r.rec == Rect(0.0, 0.0, Quot(tex.scarfyWidth, 6) as real, tex.scarfyHeight as real)
    ensures r.frame == 0 && r.updateTime == ScarfyUpdateTime && r.runningTime == 0.0
  {
    var rec := Rect(0.0, 0.0, Quot(tex.scarfyWidth, 6) as real, tex.scarfyHeight as real);
    AnimData(rec, Vec2(Quot(WindowWidth, 2) as real - rec.width / 2.0, WindowHeight as real - rec.height),
             0, ScarfyUpdateTime, 0.0)
  }

  /** The world before the first tick; the finish line starts at the last obstacle's x. */
  function InitialWorld(tex: Textures): (w: World)
    ensures |w.nebulae| == NebulaCount
    // obstacle i starts 300 * i pixels beyond the right edge, on the ground
    ensures forall i :: 0 <= i < NebulaCount ==>
      w.nebulae[i].pos.x == (WindowWidth + i * NebulaSpacing) as real && IsOnGround(w.nebulae[i], WindowHeight)
    ensures forall i :: 0 <= i < NebulaCount ==> w.nebulae[i] == InitialNebula(tex, i)
    ensures w.scarfy == InitialScarfy(tex) && IsOnGround(w.scarfy, WindowHeight)
    ensures w.velocity == 0 && !w.inAir
    ensures w.bgX == 0.0 && w.mgX == 0.0 && w.fgX == 0.0
    ensures w.finishLine == (WindowWidth + (NebulaCount - 1) * NebulaSpacing) as real
    ensures !w.collision
  {
    var nebulae := seq(NebulaCount, i => InitialNebula(tex, i));
    World(0.0, 0.0, 0.0, InitialScarfy(tex), 0, false, nebulae, nebulae[NebulaCount - 1].pos.x, false)
  }

  /** Every obstacle moves by the same `NebulaVelocity * dt`; nothing else about it changes. */
  function MoveNebulae(nebulae: seq<AnimData>, dt: real): (r: seq<AnimData>)
    ensures |r| == |nebulae|
    ensures forall i :: 0 <= i < |r| ==>
      r[i] == nebulae[i].(pos := nebulae[i].pos.(x := nebulae[i].pos.x + NebulaVelocity as real * dt))
  {
    seq(|nebulae|, i requires 0 <= i < |nebulae| =>
      nebulae[i].(pos := nebulae[i].pos.(x := nebulae[i].pos.x + NebulaVelocity as real * dt)))
  }

  /** Every obstacle gets one animator call on the 60-frame, 8-wide sheet. */
  function AnimateNebulae(nebulae: seq<AnimData>, dt: real): (r: seq<AnimData>)
    ensures |r| == |nebulae|
    ensures forall i :: 0 <= i < |r| ==> r[i] == UpdateAnimData(nebulae[i], dt, NebulaFrames, NebulaPerRow)
  {
    seq(|nebulae|, i requires 0 <= i < |nebulae| => UpdateAnimData(nebulae[i], dt, NebulaFrames, NebulaPerRow))
  }

  /** The three layers' part of a tick; a layer inside its wrap range stays inside it. */
  function ScrollBackgrounds(tex: Textures, w: World, dt: real): (r: World)
    ensures r == w.(bgX := r.bgX, mgX := r.mgX, fgX := r.fgX)
    // far, middle and near layers at 20, 40 and 80 pixels per second over their own textures
    ensures r.bgX == ScrollLayer(w.bgX, BackgroundSpeed, tex.background, dt)
    ensures r.mgX == ScrollLayer(w.mgX, MidgroundSpeed, tex.midground, dt)
    ensures r.fgX == ScrollLayer(w.fgX, ForegroundSpeed, tex.foreground, dt)
    ensures 0.0 <= dt ==>
      && (InWrapRange(w.bgX, tex.background) ==> InWrapRange(r.bgX, tex.background))
      && (InWrapRange(w.mgX, tex.midground) ==> InWrapRange(r.mgX, tex.midground))
      && (InWrapRange(w.fgX, tex.foreground) ==> InWrapRange(r.fgX, tex.foreground))
  {
    w.(bgX := ScrollLayer(w.bgX, BackgroundSpeed, tex.background, dt),
       mgX := ScrollLayer(w.mgX, MidgroundSpeed, tex.midground, dt),
       fgX := ScrollLayer(w.fgX, ForegroundSpeed, tex.foreground, dt))
  }

  /** The character's part of a tick: velocity, movement, height, and its animation when grounded. */
  function UpdateCharacter(scarfy: AnimData, velocity: int, dt: real, keys: Keys): (r: (AnimData, Vertical))
    ensures r.1.inAir <==> !IsOnGround(scarfy, WindowHeight)
    ensures r.1.inAir ==> r.0 == scarfy.(pos := r.0.pos)
    ensures !r.1.inAir ==> r.0 == UpdateAnimData(scarfy.(pos := r.0.pos), dt, ScarfyFrames, ScarfyPerRow)
    ensures r.0.rec.width == scarfy.rec.width && r.0.rec.height == scarfy.rec.height
    ensures IsOnGround(scarfy, WindowHeight) ==> r.1.velocity == if keys.jump then JumpVelocity else 0
    ensures !IsOnGround(scarfy, WindowHeight) ==> r.1.velocity == ApplyGravity(false, velocity, dt).velocity
    ensures r.0.pos.y == scarfy.pos.y + r.1.velocity as real * dt
    ensures r.0.pos.x == Move(scarfy.pos.x, keys.left, keys.right, WindowWidth as real - scarfy.rec.width)
  {
    var grounded := IsOnGround(scarfy, WindowHeight);
    var vertical := UpdateVertical(grounded, velocity, dt, keys.jump);

    var limit := WindowWidth as real - scarfy.rec.width;
    var x := Move(scarfy.pos.x, keys.left, keys.right, limit);
    var y := scarfy.pos.y + vertical.velocity as real * dt;
    var moved := scarfy.(pos := Vec2(x, y));
    var animated := if !vertical.inAir then UpdateAnimData(moved, dt, ScarfyFrames, ScarfyPerRow) else moved;
    (animated, vertical)
  }

  /** The obstacles' part of a tick: all move by the shared velocity, then each is animated. */
  function UpdateNebulae(nebulae: seq<AnimData>, dt: real): (r: seq<AnimData>)
    ensures |r| == |nebulae|
    ensures forall i :: 0 <= i < |nebulae| ==>
      r[i].pos == Vec2(nebulae[i].pos.x + NebulaVelocity as real * dt, nebulae[i].pos.y)
    ensures forall i :: 0 <= i < |nebulae| ==>
      r[i] == UpdateAnimData(MoveNebulae(nebulae, dt)[i], dt, NebulaFrames, NebulaPerRow)
  {
    AnimateNebulae(MoveNebulae(nebulae, dt), dt)
  }

  /** One pass of the loop body, `dt` seconds after the last. */
  function Step(tex: Textures, w: World, dt: real, keys: Keys, collides: (Rect, Rect) -> bool): (r: World)
    // each layer scrolls once
    ensures r.bgX == ScrollLayer(w.bgX, BackgroundSpeed, tex.background, dt)
    ensures r.mgX == ScrollLayer(w.mgX, MidgroundSpeed, tex.midground, dt)
    ensures r.fgX == ScrollLayer(w.fgX, ForegroundSpeed, tex.foreground, dt)
    // every obstacle is moved and then animated
    ensures r.nebulae == UpdateNebulae(w.nebulae, dt)
    ensures |r.nebulae| == |w.nebulae|
    // the obstacles move together, horizontally only
    ensures forall i :: 0 <= i < |w.nebulae| ==>
      r.nebulae[i].pos == Vec2(w.nebulae[i].pos.x + NebulaVelocity as real * dt, w.nebulae[i].pos.y)
    // the finish line moves with them
    ensures r.finishLine == w.finishLine + NebulaVelocity as real * dt
    // the collision flag latches, and is raised exactly by a hit this tick
    ensures w.collision ==> r.collision
    ensures r.collision <==> w.collision || AnyHit(r.nebulae, CharacterRect(r.scarfy), collides)
    // the character's part is UpdateCharacter's, on the world's character
    ensures (r.scarfy, Vertical(r.velocity, r.inAir)) == UpdateCharacter(w.scarfy, w.velocity, dt, keys)
  {
    var scrolled := ScrollBackgrounds(tex, w, dt);
    var character := UpdateCharacter(w.scarfy, w.velocity, dt, keys);
    var scarfy, vertical := character.0, character.1;
    var nebulae := UpdateNebulae(w.nebulae, dt);
    var finishLine := w.finishLine + NebulaVelocity as real * dt;
    var collision := LatchCollision(w.collision, nebulae, CharacterRect(scarfy), collides);
    scrolled.(scarfy := scarfy, velocity := vertical.velocity, inAir := vertical.inAir,
              nebulae := nebulae, finishLine := finishLine, collision := collision)
  }

  /** A finish line that starts at the last obstacle's x stays there: both move by the same amount. */
  lemma FinishLineTracksLastObstacle(tex: Textures, w: World, dt: real, keys: Keys, collides: (Rect, Rect) -> bool)
    requires |w.nebulae| > 0 && w.finishLine == w.nebulae[|w.nebulae| - 1].pos.x
    ensures var r := Step(tex, w, dt, keys, collides);
      r.finishLine == r.nebulae[|r.nebulae| - 1].pos.x
  {
    var r := Step(tex, w, dt, keys, collides);
    var last := |w.nebulae| - 1;
    assert r.nebulae[last].pos.x == w.nebulae[last].pos.x + NebulaVelocity as real * dt;
  }

  /** The overlay: a collision means lost even past the finish line; otherwise a finish line at or left of 0 means won. */
  function OutcomeOf(w: World): (o: Outcome)
    ensures o == Lost <==> w.collision
    ensures o == Won <==> !w.collision && w.finishLine <= 0.0
    ensures o == InProgress <==> !w.collision && w.finishLine > 0.0
  {
    if w.collision then Lost
    else if w.finishLine <= 0.0 then Won
    else InProgress
  }

  /** A finished game stays finished, and a lost game stays lost. */
  lemma OutcomeIsFinal(tex: Textures, w: World, dt: real, keys: Keys, collides: (Rect, Rect) -> bool)
    requires 0.0 <= dt
    ensures OutcomeOf(w) == Lost ==> OutcomeOf(Step(tex, w, dt, keys, collides)) == Lost
    ensures OutcomeOf(w) != InProgress ==> OutcomeOf(Step(tex, w, dt, keys, collides)) != InProgress
  {
  }

  /**
   Winning does not stop the collision test: a won game turns into a lost one
   on the first later tick on which an obstacle meets the character.
   */
  lemma WinIsNotFinal(tex: Textures, w: World, dt: real, keys: Keys, collides: (Rect, Rect) -> bool)
    requires 0.0 <= dt && OutcomeOf(w) == Won
    ensures var r := Step(tex, w, dt, keys, collides);
      OutcomeOf(r) == if AnyHit(r.nebulae, CharacterRect(r.scarfy), collides) then Lost else Won
  {
  }

  /** Texture sizes under which the game is well formed: scrolling layers have width, sheet cells are non-empty, the character fits the window. */
  predicate SaneTextures(tex: Textures)
  {
    && 0 < tex.background && 0 < tex.midground && 0 < tex.foreground
    // every sheet cell is at least one pixel in each direction
    && 6 <= tex.scarfyWidth && 0 < tex.scarfyHeight && 8 <= tex.nebulaWidth && 8 <= tex.nebulaHeight
    && Quot(tex.scarfyWidth, 6) <= WindowWidth
  }

  /**
   A sprite whose frame counter is in its cycle, whose timer is inside its
   interval, and whose source rectangle is a cell of its sheet's grid.
   */
  predicate AnimInCycle(a: AnimData, totalFrames: int, perRow: int, updateTime: real)
    requires 0 < perRow
  {
    && 0 <= a.frame < totalFrames
    && a.updateTime == updateTime
    && 0.0 <= a.runningTime < updateTime
    && OnGrid(a.rec, perRow, (totalFrames - 1) / perRow)
  }

  /** What holds of the world before every tick. */
  predicate Valid(tex: Textures, w: World)
  {
    && InWrapRange(w.bgX, tex.background)
    && InWrapRange(w.mgX, tex.midground)
    && InWrapRange(w.fgX, tex.foreground)
    && AnimInCycle(w.scarfy, ScarfyFrames, ScarfyPerRow, ScarfyUpdateTime)
    && 0.0 <= w.scarfy.rec.width <= WindowWidth as real
    && NearWindow(w.scarfy.pos.x, WindowWidth as real - w.scarfy.rec.width)
    && |w.nebulae| == NebulaCount
    && w.finishLine == w.nebulae[NebulaCount - 1].pos.x
    && forall i :: 0 <= i < NebulaCount ==> AnimInCycle(w.nebulae[i], NebulaFrames, NebulaPerRow, NebulaUpdateTime)
  }

  lemma InitialValid(tex: Textures)
    requires SaneTextures(tex)
    ensures Valid(tex, InitialWorld(tex))
  {
    var w := InitialWorld(tex);
    assert w.scarfy.rec.width == Quot(tex.scarfyWidth, 6) as real;
    assert Quot(WindowWidth, 2) == 256;
    FirstCellOnGrid(w.scarfy.rec, ScarfyPerRow, (ScarfyFrames - 1) / ScarfyPerRow);
    FirstCellOnGrid(InitialNebula(tex, 0).rec, NebulaPerRow, (NebulaFrames - 1) / NebulaPerRow);
  }

  /** The top-left cell of a sheet with non-empty cells lies on its grid. */
  lemma FirstCellOnGrid(rec: Rect, maxFrame: int, lastRow: int)
    requires rec.x == 0.0 && rec.y == 0.0 && rec.width > 0.0 && rec.height > 0.0
    requires 0 < maxFrame && 0 <= lastRow
    ensures OnGrid(rec, maxFrame, lastRow)
  {
    GridCell(0, 0, maxFrame, lastRow, rec);
  }

  /** A tick of non-negative length keeps the world valid. */
  lemma StepPreservesValid(tex: Textures, w: World, dt: real, keys: Keys, collides: (Rect, Rect) -> bool)
    requires SaneTextures(tex) && Valid(tex, w) && 0.0 <= dt
    ensures Valid(tex, Step(tex, w, dt, keys, collides))
  {
    var r := Step(tex, w, dt, keys, collides);
    var limit := WindowWidth as real - w.scarfy.rec.width;
    MoveStaysNearWindow(w.scarfy.pos.x, keys.left, keys.right, limit);
    FinishLineTracksLastObstacle(tex, w, dt, keys, collides);
    assert r.scarfy.pos.x == Move(w.scarfy.pos.x, keys.left, keys.right, limit);
    CharacterStaysInCycle(w.scarfy, w.velocity, dt, keys);
    forall i | 0 <= i < NebulaCount
      ensures AnimInCycle(r.nebulae[i], NebulaFrames, NebulaPerRow, NebulaUpdateTime)
    {
      var moved := MoveNebulae(w.nebulae, dt);
      assert r.nebulae[i] == UpdateAnimData(moved[i], dt, NebulaFrames, NebulaPerRow);
      NebulaStaysInCycle(w.nebulae[i], moved[i], dt);
    }
  }

  /** The character's animation state stays in its cycle and on its grid through its part of a tick. */
  lemma CharacterStaysInCycle(scarfy: AnimData, velocity: int, dt: real, keys: Keys)
    requires AnimInCycle(scarfy, ScarfyFrames, ScarfyPerRow, ScarfyUpdateTime) && 0.0 <= dt
    ensures AnimInCycle(UpdateCharacter(scarfy, velocity, dt, keys).0, ScarfyFrames, ScarfyPerRow, ScarfyUpdateTime)
  {
    var r := UpdateCharacter(scarfy, velocity, dt, keys).0;
    var moved := scarfy.(pos := r.pos);
    OnGridSame(scarfy.rec, moved.rec, ScarfyPerRow, (ScarfyFrames - 1) / ScarfyPerRow);
    if !IsOnGround(scarfy, WindowHeight) {
      OnGridSame(moved.rec, r.rec, ScarfyPerRow, (ScarfyFrames - 1) / ScarfyPerRow);
    } else {
      AnimationStaysOnGrid(moved, dt, ScarfyFrames, ScarfyPerRow);
    }
  }

  /** An obstacle's animation state stays in its cycle and on its grid through its move and its animator call. */
  lemma NebulaStaysInCycle(nebula: AnimData, moved: AnimData, dt: real)
    requires AnimInCycle(nebula, NebulaFrames, NebulaPerRow, NebulaUpdateTime) && 0.0 <= dt
    requires moved == nebula.(pos := moved.pos)
    ensures AnimInCycle(UpdateAnimData(moved, dt, NebulaFrames, NebulaPerRow), NebulaFrames, NebulaPerRow, NebulaUpdateTime)
  {
    OnGridSame(nebula.rec, moved.rec, NebulaPerRow, (NebulaFrames - 1) / NebulaPerRow);
    AnimationStaysOnGrid(moved, dt, NebulaFrames, NebulaPerRow);
  }

  /** Standing still on the ground without jumping: the velocity stays 0 and the height does not change. */
  lemma RestingStaysPut(tex: Textures, w: World, dt: real, keys: Keys, collides: (Rect, Rect) -> bool)
    requires IsOnGround(w.scarfy, WindowHeight) && !keys.jump
    ensures var r := Step(tex, w, dt, keys, collides);
      r.velocity == 0 && r.scarfy.pos.y == w.scarfy.pos.y && !r.inAir
  {
  }

  /**
   A jump from exactly ground level: the tick ends with the jump velocity and
   the character above the ground, so the next tick finds it in the air.
   */
  lemma JumpLeavesGround(tex: Textures, w: World, dt: real, keys: Keys, collides: (Rect, Rect) -> bool,
                         dt': real, keys': Keys)
    requires w.scarfy.pos.y + w.scarfy.rec.height == WindowHeight as real
    requires keys.jump && 0.0 < dt
    ensures var r := Step(tex, w, dt, keys, collides);
      && r.velocity == JumpVelocity
      && r.scarfy.pos.y < w.scarfy.pos.y
      && Step(tex, r, dt', keys', collides).inAir
  {
  }

  /**
   Landing never puts the character back on the ground line, so it can end a
   fall below it. From deeper than one tick's rise, a jump still leaves the
   character on the ground: the next tick finds it grounded and replaces the
   jump velocity with zero, or with a fresh jump if the key is still held.
   */
  lemma SunkJumpSwallowed(tex: Textures, w: World, dt: real, keys: Keys, collides: (Rect, Rect) -> bool,
                          dt': real, keys': Keys)
    requires w.scarfy.pos.y + w.scarfy.rec.height + JumpVelocity as real * dt >= WindowHeight as real
    requires keys.jump && 0.0 < dt
    ensures var r := Step(tex, w, dt, keys, collides);
      && r.velocity == JumpVelocity
      && r.scarfy.pos.y < w.scarfy.pos.y
      && !r.inAir
      && var r' := Step(tex, r, dt', keys', collides);
         !r'.inAir && r'.velocity == if keys'.jump then JumpVelocity else 0
  {
  }

  /** One tick of the run: its frame time and key state. */
  datatype Tick = Tick(dt: real, keys: Keys)

  /** The loop over a sequence of ticks. */
  function Run(tex: Textures, w: World, ticks: seq<Tick>, collides: (Rect, Rect) -> bool): World
    decreases |ticks|
  {
    if |ticks| == 0 then w
    else Run(tex, Step(tex, w, ticks[0].dt, ticks[0].keys, collides), ticks[1..], collides)
  }

  /** Total time covered by `ticks`. */
  function Elapsed(ticks: seq<Tick>): real
    decreases |ticks|
  {
    if |ticks| == 0 then 0.0 else ticks[0].dt + Elapsed(ticks[1..])
  }

  predicate NonNegativeTicks(ticks: seq<Tick>)
  {
    forall i :: 0 <= i < |ticks| ==> 0.0 <= ticks[i].dt
  }

  /** Every tick of non-negative length keeps the world valid, so a whole run does. */
  lemma {:induction false} RunPreservesValid(tex: Textures, w: World, ticks: seq<Tick>, collides: (Rect, Rect) -> bool)
    requires SaneTextures(tex) && Valid(tex, w) && NonNegativeTicks(ticks)
    ensures Valid(tex, Run(tex, w, ticks, collides))
    decreases |ticks|
  {
    if |ticks| > 0 {
      StepPreservesValid(tex, w, ticks[0].dt, ticks[0].keys, collides);
      assert NonNegativeTicks(ticks[1..]) by {
        forall i | 0 <= i < |ticks[1..]| ensures 0.0 <= ticks[1..][i].dt {
          assert ticks[1..][i] == ticks[i + 1];
        }
      }
      RunPreservesValid(tex, Step(tex, w, ticks[0].dt, ticks[0].keys, collides), ticks[1..], collides);
    }
  }

  /** Over a run the finish line moves at the obstacles' velocity for the whole elapsed time. */
  lemma {:induction false} RunMovesFinishLine(tex: Textures, w: World, ticks: seq<Tick>, collides: (Rect, Rect) -> bool)
    ensures Run(tex, w, ticks, collides).finishLine == w.finishLine + NebulaVelocity as real * Elapsed(ticks)
    decreases |ticks|
  {
    if |ticks| > 0 {
      RunMovesFinishLine(tex, Step(tex, w, ticks[0].dt, ticks[0].keys, collides), ticks[1..], collides);
    }
  }

  /** A collision at any point of a run is still recorded at its end. */
  lemma {:induction false} RunKeepsCollision(tex: Textures, w: World, ticks: seq<Tick>, collides: (Rect, Rect) -> bool)
    requires w.collision
    ensures Run(tex, w, ticks, collides).collision
    decreases |ticks|
  {
    if |ticks| > 0 {
      RunKeepsCollision(tex, Step(tex, w, ticks[0].dt, ticks[0].keys, collides), ticks[1..], collides);
    }
  }

  /**
   From the start the finish line is at 512 + 9 * 300 = 3212 and moves left
   at 200 pixels per second, so a run without a collision is won exactly
   when 16.06 seconds have elapsed.
   */
  lemma WinTime(tex: Textures, ticks: seq<Tick>, collides: (Rect, Rect) -> bool)
    ensures var r := Run(tex, InitialWorld(tex), ticks, collides);
      !r.collision ==> (OutcomeOf(r) == Won <==> Elapsed(ticks) >= 16.06)
  {
    RunMovesFinishLine(tex, InitialWorld(tex), ticks, collides);
  }
}

=== FILE: kinematics.dfy ===
/**
 The character's vertical velocity (gravity, grounding, jump) and its
 horizontal movement under the A and D keys. The velocity is a C++ `int`:
 adding the floating-point gravity step converts the sum back to `int` by
 truncation toward zero.
 */
module Kinematics {
  import opened CArith

  /** Downward acceleration, pixels per second squared. */
  const Gravity: int := 1500
  /** Velocity added by a jump, pixels per second (negative is up). */
  const JumpVelocity: int := -800
  /** Horizontal move per tick while A or D is held, pixels. */
  const CharSpeed: int := 10

  /** The character's vertical velocity and whether it was airborne at the start of the tick. */
  datatype Vertical = Vertical(velocity: int, inAir: bool)

  /**
   Grounded: the velocity is zeroed and the character is not in the air.
   Airborne: gravity for `dt` is added, the sum truncated to an `int`.
   */
  function ApplyGravity(grounded: bool, velocity: int, dt: real): (v: Vertical)
    ensures v.inAir == !grounded
    ensures grounded ==> v.velocity == 0
    // the truncated sum is within one unit of the exact one, on the side of zero
    ensures !grounded ==>
      var exact := velocity as real + Gravity as real * dt;
      && (v.velocity as real - 1.0 < exact < v.velocity as real + 1.0)
      && (exact >= 0.0 ==> v.velocity as real <= exact)
      && (exact < 0.0 ==> exact <= v.velocity as real)
    // gravity never makes an airborne character rise faster
    ensures !grounded && 0.0 <= dt ==> velocity <= v.velocity
  {
    if grounded then Vertical(0, false)
    else Vertical(TruncToInt(velocity as real + Gravity as real * dt), true)
  }

  /** The jump key, pressed this tick, adds the jump velocity unless the character is in the air. */
  function Jump(v: Vertical, pressed: bool): (r: Vertical)
    ensures r.inAir == v.inAir
    ensures pressed && !v.inAir ==> r.velocity == v.velocity + JumpVelocity
    ensures !pressed || v.inAir ==> r == v
  {
    if pressed && !v.inAir then v.(velocity := v.velocity + JumpVelocity) else v
  }

  /** The vertical update of one tick: gravity or grounding, then the jump. */
  function UpdateVertical(grounded: bool, velocity: int, dt: real, jumpPressed: bool): (r: Vertical)
    ensures r.inAir == !grounded
    ensures grounded ==> r.velocity == if jumpPressed then JumpVelocity else 0
    ensures !grounded ==> r == ApplyGravity(false, velocity, dt)
  {
    Jump(ApplyGravity(grounded, velocity, dt), jumpPressed)
  }

  /** The jump key makes a difference to the tick exactly when the character starts it on the ground. */
  lemma JumpOnlyFromGround(grounded: bool, velocity: int, dt: real)
    ensures UpdateVertical(grounded, velocity, dt, true) != UpdateVertical(grounded, velocity, dt, false) <==> grounded
  {
  }

  /** A held A key: move left, or snap to 0 once at or past the left edge. */
  function MoveLeft(x: real): (r: real)
    ensures x <= 0.0 ==> r == 0.0
    ensures x > 0.0 ==> r == x - CharSpeed as real
    // never more than one step past the edge, and never to the right of where it was unless snapping
    ensures -(CharSpeed as real) < r
    ensures r <= x || r == 0.0
  {
    if x > 0.0 then x - CharSpeed as real else 0.0
  }

  /** A held D key: move right, or snap to `limit` once at or past the right edge. */
  function MoveRight(x: real, limit: real): (r: real)
    ensures x >= limit ==> r == limit
    ensures x < limit ==> r == x + CharSpeed as real
    ensures r < limit + CharSpeed as real
    ensures r >= x || r == limit
  {
    if x < limit then x + CharSpeed as real else limit
  }

  /** One tick of horizontal movement: A is handled before D; `limit` is the window width less the sprite width. */
  function Move(x: real, left: bool, right: bool, limit: real): (r: real)
    ensures !left && !right ==> r == x
    ensures left && !right ==> r == MoveLeft(x)
    ensures !left && right ==> r == MoveRight(x, limit)
    // both held: D acts on the result of A
    ensures left && right ==> r == MoveRight(MoveLeft(x), limit)
  {
    var x := if left then MoveLeft(x) else x;
    if right then MoveRight(x, limit) else x
  }

  /** The band the character's x keeps to: at most one step beyond either edge. */
  predicate NearWindow(x: real, limit: real)
  {
    -(CharSpeed as real) < x < limit + CharSpeed as real
  }

  /** Whatever keys are held, x never strays more than one step beyond the window's edges. */
  lemma MoveStaysNearWindow(x: real, left: bool, right: bool, limit: real)
    requires 0.0 <= limit
    requires NearWindow(x, limit)
    ensures NearWindow(Move(x, left, right, limit), limit)
  {
  }

  /** Where `n` ticks with the same keys held take the character from `x`. */
  function Hold(x: real, left: bool, right: bool, limit: real, n: nat): real
    decreases n
  {
    if n == 0 then x else Hold(Move(x, left, right, limit), left, right, limit, n - 1)
  }

  /** Holding A at or past the left edge keeps x at exactly 0, however many ticks it is held. */
  lemma {:induction false} LeftEdgeHolds(x: real, limit: real, n: nat)
    requires x <= 0.0 && 0 < n
    ensures Hold(x, true, false, limit, n) == 0.0
    decreases n
  {
    if n > 1 {
      LeftEdgeHolds(Move(x, true, false, limit), limit, n - 1);
    }
  }

  /** Holding D at or past the right edge keeps x at exactly `limit`, however many ticks it is held. */
  lemma {:induction false} RightEdgeHolds(x: real, limit: real, n: nat)
    requires x >= limit && 0 < n
    ensures Hold(x, false, true, limit, n) == limit
    decreases n
  {
    if n > 1 {
      RightEdgeHolds(Move(x, false, true, limit), limit, n - 1);
    }
  }

  /**
   The edge is enforced one tick late: from x = 5 a held A moves the
   character to -5, left of the window, and only the next tick snaps it to 0.
   */
  lemma LeftEdgeOvershoot(limit: real)
    ensures Move(5.0, true, false, limit) == -5.0
    ensures Move(-5.0, true, false, limit) == 0.0
  {
  }

  /** Likewise on the right: from two pixels short of the edge a held D lands eight pixels past it. */
  lemma RightEdgeOvershoot(limit: real)
    ensures Move(limit - 2.0, false, true, limit) == limit + 8.0
    ensures Move(limit + 8.0, false, true, limit) == limit
  {
  }
}

=== FILE: scroll.dfy ===
/**
 One parallax background layer: an offset that moves left at a fixed speed
 and jumps back to zero once it has travelled two texture widths (the layer
 is drawn at twice its size, so that is one whole drawn copy).
 */
module Scroll {

  /** Scroll speeds of the far, middle and near layers, in pixels per second. */
  const BackgroundSpeed: int := 20
  const MidgroundSpeed: int := 40
  const ForegroundSpeed: int := 80

  /** The offsets a layer of texture width `width` takes between wraps: `(-2*width, 0]`. */
  predicate InWrapRange(offset: real, width: int)
  {
    -2.0 * width as real < offset <= 0.0
  }

  /** One tick of a layer: move left by `speed * dt`, and wrap to 0 once two widths have gone by. */
  function ScrollLayer(offset: real, speed: int, width: int, dt: real): (r: real)
    // reaching the wrap point resets to exactly zero; short of it the layer moves by the full step
    ensures offset - speed as real * dt <= -2.0 * width as real ==> r == 0.0
    ensures offset - speed as real * dt > -2.0 * width as real ==> r == offset - speed as real * dt
    // the layer only moves left, except for the wrap itself
    ensures 0.0 <= dt && 0 <= speed ==> r <= offset || r == 0.0
    // an offset in the wrap range stays in it
    ensures 0.0 <= dt && 0 <= speed && InWrapRange(offset, width) ==> InWrapRange(r, width)
  {
    var moved := offset - speed as real * dt;
    if moved <= (-width * 2) as real then 0.0 else moved
  }

  /** `n` ticks of the same length `dt`. */
  function ScrollTicks(offset: real, speed: int, width: int, dt: real, n: nat): real
  {
    if n == 0 then offset else ScrollLayer(ScrollTicks(offset, speed, width, dt, n - 1), speed, width, dt)
  }

  /** Distance covered by `n` steps of length `step`, added one step at a time. */
  function Travel(step: real, n: nat): real
  {
    if n == 0 then 0.0 else Travel(step, n - 1) + step
  }

  lemma {:induction false} TravelIsProduct(step: real, n: nat)
    ensures Travel(step, n) == n as real * step
  {
    if n > 0 {
      TravelIsProduct(step, n - 1);
      assert n as real * step == (n - 1) as real * step + step;
    }
  }

  lemma RealMulNonneg(a: real, b: real)
    requires 0.0 <= a && 0.0 <= b
    ensures 0.0 <= a * b
  {
  }

  /** Starting from 0, a layer moves `n` equal steps to the left as long as it has not reached the wrap point. */
  lemma ScrollsUntilWrap(speed: int, width: int, dt: real, n: nat)
    requires 0 <= speed && 0.0 <= dt
    requires n as real * (speed as real * dt) < 2.0 * width as real
    ensures ScrollTicks(0.0, speed, width, dt, n) == -(n as real * (speed as real * dt))
  {
    RealMulNonneg(speed as real, dt);
    TravelIsProduct(speed as real * dt, n);
    ScrollsBySteps(speed, width, dt, speed as real * dt, n);
  }

  lemma {:induction false} ScrollsBySteps(speed: int, width: int, dt: real, step: real, n: nat)
    requires step == speed as real * dt && 0.0 <= step
    requires Travel(step, n) < 2.0 * width as real
    ensures ScrollTicks(0.0, speed, width, dt, n) == -Travel(step, n)
  {
    if n > 0 {
      ScrollsBySteps(speed, width, dt, step, n - 1);
      MoveTick(ScrollTicks(0.0, speed, width, dt, n - 1), speed, width, dt);
    }
  }

  lemma MoveTick(prev: real, speed: int, width: int, dt: real)
    requires prev - speed as real * dt > -2.0 * width as real
    ensures ScrollLayer(prev, speed, width, dt) == prev - speed as real * dt
  {
  }

  lemma WrapTick(prev: real, speed: int, width: int, dt: real)
    requires prev - speed as real * dt <= -2.0 * width as real
    ensures ScrollLayer(prev, speed, width, dt) == 0.0
  {
  }

  /** The tick on which the travelled distance first reaches two widths lands exactly on 0. */
  lemma WrapsToZero(speed: int, width: int, dt: real, n: nat)
    requires 0 <= speed && 0.0 <= dt && 0 < n
    requires (n - 1) as real * (speed as real * dt) < 2.0 * width as real <= n as real * (speed as real * dt)
    ensures ScrollTicks(0.0, speed, width, dt, n) == 0.0
  {
    var step := speed as real * dt;
    RealMulNonneg(speed as real, dt);
    TravelIsProduct(step, n - 1);
    TravelIsProduct(step, n);
    WrapsBySteps(speed, width, dt, step, n);
  }

  lemma WrapsBySteps(speed: int, width: int, dt: real, step: real, n: nat)
    requires step == speed as real * dt && 0.0 <= step && 0 < n
    requires Travel(step, n - 1) < 2.0 * width as real <= Travel(step, n)
    ensures ScrollTicks(0.0, speed, width, dt, n) == 0.0
  {
    ScrollsBySteps(speed, width, dt, step, n - 1);
    WrapTick(ScrollTicks(0.0, speed, width, dt, n - 1), speed, width, dt);
  }

  /**
   At 60 ticks per second the middle layer (speed 40) over an 800 pixel wide
   texture is back at exactly 0 after 2400 ticks ...
   */
  lemma MidgroundPeriod()
    ensures ScrollTicks(0.0, MidgroundSpeed, 800, 1.0 / 60.0, 2400) == 0.0
  {
    var step := MidgroundSpeed as real * (1.0 / 60.0);
    assert step == 2.0 / 3.0;
    assert 2399 as real * step < 1600.0 <= 2400 as real * step;
    WrapsToZero(MidgroundSpeed, 800, 1.0 / 60.0, 2400);
  }

  /** ... and strictly left of 0 on every tick before that. */
  lemma MidgroundNoEarlyWrap(k: nat)
    requires 0 < k < 2400
    ensures ScrollTicks(0.0, MidgroundSpeed, 800, 1.0 / 60.0, k) < 0.0
  {
    var step := MidgroundSpeed as real * (1.0 / 60.0);
    assert step == 2.0 / 3.0;
    assert k as real * step < 1600.0;
    ScrollsUntilWrap(MidgroundSpeed, 800, 1.0 / 60.0, k);
  }
}

=== FILE: sprite.dfy ===
/**
 The sprite record shared by the character and every obstacle, the ground
 test, and the sprite-sheet frame animator. An update is value in, value out:
 the animator returns a new record and never touches the sprite's position.
 */
module Sprite {
  import opened CArith

  /** raylib's `Rectangle`: top-left corner and size, in pixels. */
  datatype Rect = Rect(x: real, y: real, width: real, height: real)

  /** raylib's `Vector2`. */
  datatype Vec2 = Vec2(x: real, y: real)

  /**
   `rec` is the source cell on the sprite sheet, `pos` the top-left corner on
   screen, `frame` the frame counter, `updateTime` how long a frame is held and
   `runningTime` the time accumulated since the last advance.
   */
  datatype AnimData = AnimData(rec: Rect, pos: Vec2, frame: int, updateTime: real, runningTime: real)

  /** The sprite stands on (or has sunk below) the bottom edge of a window `windowHeight` pixels tall. */
  function IsOnGround(data: AnimData, windowHeight: int): (r: bool)
    ensures r <==> data.pos.y + data.rec.height >= windowHeight as real
  {
    data.pos.y >= windowHeight as real - data.rec.height
  }

  /** Column of the sheet cell that frame counter `frame` selects. */
  function Column(frame: int, totalFrames: int, maxFrame: int): int
    requires totalFrames != 0 && maxFrame != 0
  {
    Rem(Rem(frame, totalFrames), maxFrame)
  }

  /** Row of the sheet cell that frame counter `frame` selects. */
  function Row(frame: int, totalFrames: int, maxFrame: int): int
    requires totalFrames != 0 && maxFrame != 0
  {
    Quot(Rem(frame, totalFrames), maxFrame)
  }

  /** The timer reaches the frame interval on this call. */
  predicate Advances(data: AnimData, deltaTime: real)
  {
    data.runningTime + deltaTime >= data.updateTime
  }

  /**
   One animator call. Below the interval only the timer grows; at or past it
   the cell of the frame being left is selected, the timer is reset and the
   counter moves on by one, however large `deltaTime` is. C++ `%` and `/`
   would divide by zero when `totalFrames` or `maxFrame` is 0, so those are
   demanded only when the advance happens.
   */
  function UpdateAnimData(data: AnimData, deltaTime: real, totalFrames: int, maxFrame: int): (r: AnimData)
    requires Advances(data, deltaTime) ==> totalFrames != 0 && maxFrame != 0
    // never changed: the position, the interval and the cell size
    ensures r.pos == data.pos && r.updateTime == data.updateTime
    ensures r.rec.width == data.rec.width && r.rec.height == data.rec.height
    // below the interval nothing but the timer changes
    ensures !Advances(data, deltaTime) ==> r == data.(runningTime := data.runningTime + deltaTime)
    // at or past it: timer back to exactly zero, the counter one further round the cycle
    ensures Advances(data, deltaTime) ==>
      && r.runningTime == 0.0
      && r.frame == Rem(data.frame + 1, totalFrames)
      && r.rec == data.rec.(x := Column(data.frame, totalFrames, maxFrame) as real * data.rec.width,
                            y := Row(data.frame, totalFrames, maxFrame) as real * data.rec.height)
    // a counter inside the cycle stays inside it
    ensures 0 <= data.frame < totalFrames ==> 0 <= r.frame < totalFrames
    // a timer inside the interval stays inside it
    ensures 0.0 <= data.runningTime && 0.0 <= deltaTime && 0.0 < data.updateTime ==>
      0.0 <= r.runningTime < r.updateTime
  {
    var runningTime := data.runningTime + deltaTime;
    if runningTime >= data.updateTime then
      var column, row := Column(data.frame, totalFrames, maxFrame), Row(data.frame, totalFrames, maxFrame);
      var rec := data.rec.(x := column as real * data.rec.width, y := row as real * data.rec.height);
      RemInCycle(data.frame + 1, totalFrames);
      data.(rec := rec, runningTime := 0.0, frame := Rem(data.frame + 1, totalFrames))
    else
      data.(runningTime := runningTime)
  }

  lemma RemInCycle(a: int, b: int)
    requires b != 0
    ensures 0 <= a && 0 < b ==> 0 <= Rem(a, b) < b
  {
  }

}

=== FILE: spritesheet.dfy ===
/**
 What the frame animator's cell selection and counter do over a sprite sheet:
 the selected cell lies on the sheet's grid and identifies the frame, the
 picture lags the counter by one, and long steps never skip frames.
 */
module SpriteSheet {
  import opened CArith
  import opened Sprite

  /** A frame counter in `[0, totalFrames)` selects a cell inside the sheet's grid. */
  lemma CellInGrid(frame: int, totalFrames: int, maxFrame: int)
    requires 0 <= frame && 0 < totalFrames && 0 < maxFrame
    ensures 0 <= Column(frame, totalFrames, maxFrame) < maxFrame
    ensures 0 <= Row(frame, totalFrames, maxFrame) <= (totalFrames - 1) / maxFrame
  {
    var f := Rem(frame, totalFrames);
    TruncMatchesEuclid(f, maxFrame);
    assert 0 <= f < totalFrames;
    DivMonotone(f, totalFrames - 1, maxFrame);
  }

  /** Reading the cell back as row-major index recovers the frame: the grid lists every frame once. */
  lemma CellRoundTrip(frame: int, totalFrames: int, maxFrame: int)
    requires 0 <= frame < totalFrames && 0 < maxFrame
    ensures Row(frame, totalFrames, maxFrame) * maxFrame + Column(frame, totalFrames, maxFrame) == frame
  {
    TruncMatchesEuclid(frame, totalFrames);
    assert Rem(frame, totalFrames) == frame by {
      ModBelow(frame, totalFrames);
    }
    TruncMatchesEuclid(frame, maxFrame);
    Euclid(frame, maxFrame);
  }

  /** Distinct frames of one cycle are drawn from distinct cells. */
  lemma CellsDistinct(f: int, g: int, totalFrames: int, maxFrame: int)
    requires 0 <= f < totalFrames && 0 <= g < totalFrames && 0 < maxFrame
    requires f != g
    ensures Column(f, totalFrames, maxFrame) != Column(g, totalFrames, maxFrame)
         || Row(f, totalFrames, maxFrame) != Row(g, totalFrames, maxFrame)
  {
    CellRoundTrip(f, totalFrames, maxFrame);
    CellRoundTrip(g, totalFrames, maxFrame);
  }

  /** The frame index that the source rectangle's cell stands for on a sheet `maxFrame` cells wide. */
  function FrameShown(rec: Rect, maxFrame: int): int
    requires rec.width > 0.0 && rec.height > 0.0
  {
    (rec.y / rec.height).Floor * maxFrame + (rec.x / rec.width).Floor
  }

  lemma ScaleBack(n: int, w: real)
    requires w > 0.0
    ensures (n as real * w) / w == n as real
  {
  }

  lemma ShownFromCell(c: int, k: int, maxFrame: int, rec: Rect)
    requires rec.width > 0.0 && rec.height > 0.0
    requires rec.x == c as real * rec.width && rec.y == k as real * rec.height
    ensures FrameShown(rec, maxFrame) == k * maxFrame + c
  {
    WholeCells(c, rec.x, rec.width);
    WholeCells(k, rec.y, rec.height);
  }

  /**
   The picture lags the counter by one: after an advance the cell on show is
   the frame the counter has just left, and the counter is one further on.
   */
  lemma {:induction false} ShownCellLagsCounter(data: AnimData, deltaTime: real, totalFrames: int, maxFrame: int)
    requires 0 <= data.frame < totalFrames && 0 < maxFrame
    requires data.rec.width > 0.0 && data.rec.height > 0.0
    requires Advances(data, deltaTime)
    ensures var r := UpdateAnimData(data, deltaTime, totalFrames, maxFrame);
      && FrameShown(r.rec, maxFrame) == data.frame
      && r.frame == (data.frame + 1) % totalFrames
  {
    var r := UpdateAnimData(data, deltaTime, totalFrames, maxFrame);
    var c, k := Column(data.frame, totalFrames, maxFrame), Row(data.frame, totalFrames, maxFrame);
    ShownFromCell(c, k, maxFrame, r.rec);
    CellRoundTrip(data.frame, totalFrames, maxFrame);
    TruncMatchesEuclid(data.frame + 1, totalFrames);
  }

  /**
   With a counter in the cycle, the cell's x is a whole number of cell widths,
   at most `maxFrame - 1` of them, and its y a whole number of cell heights,
   at most as many as the sheet has rows.
   */
  lemma CellOnGrid(data: AnimData, deltaTime: real, totalFrames: int, maxFrame: int)
    requires 0 <= data.frame && 0 < totalFrames && 0 < maxFrame
    requires data.rec.width > 0.0 && data.rec.height > 0.0
    requires Advances(data, deltaTime)
    ensures OnGrid(UpdateAnimData(data, deltaTime, totalFrames, maxFrame).rec, maxFrame, (totalFrames - 1) / maxFrame)
  {
    CellOnGridOf(data, deltaTime, totalFrames, maxFrame, UpdateAnimData(data, deltaTime, totalFrames, maxFrame));
  }

  lemma CellOnGridOf(data: AnimData, deltaTime: real, totalFrames: int, maxFrame: int, r: AnimData)
    requires 0 <= data.frame && 0 < totalFrames && 0 < maxFrame
    requires data.rec.width > 0.0 && data.rec.height > 0.0
    requires Advances(data, deltaTime)
    requires r == UpdateAnimData(data, deltaTime, totalFrames, maxFrame)
    ensures OnGrid(r.rec, maxFrame, (totalFrames - 1) / maxFrame)
  {
    var c, k := AdvancedCell(data, deltaTime, totalFrames, maxFrame);
    var rec := data.rec.(x := c as real * data.rec.width, y := k as real * data.rec.height);
    GridCell(c, k, maxFrame, (totalFrames - 1) / maxFrame, rec);
    OnGridSame(rec, r.rec, maxFrame, (totalFrames - 1) / maxFrame);
  }

  /** Carries `OnGrid` across an equality without letting the solver look inside either side. */
  lemma OnGridSame(a: Rect, b: Rect, maxFrame: int, lastRow: int)
    requires a == b && OnGrid(a, maxFrame, lastRow)
    ensures OnGrid(b, maxFrame, lastRow)
  {
  }

  /**
   Every animator call keeps an on-grid source rectangle on the grid: an
   advance selects a fresh cell inside it, and otherwise the cell stays put.
   */
  lemma AnimationStaysOnGrid(data: AnimData, deltaTime: real, totalFrames: int, maxFrame: int)
    requires 0 <= data.frame && 0 < totalFrames && 0 < maxFrame
    requires OnGrid(data.rec, maxFrame, (totalFrames - 1) / maxFrame)
    ensures OnGrid(UpdateAnimData(data, deltaTime, totalFrames, maxFrame).rec, maxFrame, (totalFrames - 1) / maxFrame)
  {
    if Advances(data, deltaTime) {
      CellOnGrid(data, deltaTime, totalFrames, maxFrame);
    } else {
      OnGridSame(data.rec, UpdateAnimData(data, deltaTime, totalFrames, maxFrame).rec, maxFrame, (totalFrames - 1) / maxFrame);
    }
  }

  /** The grid column and row an advance selects, and the source rectangle built from them. */
  lemma AdvancedCell(data: AnimData, deltaTime: real, totalFrames: int, maxFrame: int) returns (c: int, k: int)
    requires 0 <= data.frame && 0 < totalFrames && 0 < maxFrame
    requires Advances(data, deltaTime)
    ensures 0 <= c < maxFrame && 0 <= k <= (totalFrames - 1) / maxFrame
    ensures UpdateAnimData(data, deltaTime, totalFrames, maxFrame).rec
         == data.rec.(x := c as real * data.rec.width, y := k as real * data.rec.height)
  {
    c, k := Column(data.frame, totalFrames, maxFrame), Row(data.frame, totalFrames, maxFrame);
    CellInGrid(data.frame, totalFrames, maxFrame);
  }

  /**
   `rec` is a cell of a grid with `maxFrame` columns and `lastRow + 1` rows: its
   x and y are whole numbers of cell widths and heights inside the grid.
   */
  predicate OnGrid(rec: Rect, maxFrame: int, lastRow: int)
  {
    && rec.width > 0.0 && rec.height > 0.0
    && var cols, rows := rec.x / rec.width, rec.y / rec.height;
    && cols == cols.Floor as real && 0 <= cols.Floor < maxFrame
    && rows == rows.Floor as real && 0 <= rows.Floor <= lastRow
    && 0.0 <= rec.x <= (maxFrame - 1) as real * rec.width
  }

  /** Column `c` and row `k` of a grid with `maxFrame` columns and `lastRow + 1` rows, as a rectangle. */
  lemma GridCell(c: int, k: int, maxFrame: int, lastRow: int, rec: Rect)
    requires 0 <= c < maxFrame && 0 <= k <= lastRow
    requires rec.width > 0.0 && rec.height > 0.0
    requires rec.x == c as real * rec.width && rec.y == k as real * rec.height
    ensures OnGrid(rec, maxFrame, lastRow)
  {
    WholeCells(c, rec.x, rec.width);
    WholeCells(k, rec.y, rec.height);
    ColumnXBound(c, maxFrame, rec.x, rec.width);
  }

  lemma WholeCells(n: int, x: real, w: real)
    requires w > 0.0 && x == n as real * w
    ensures (x / w).Floor == n && x / w == n as real
  {
    ScaleBack(n, w);
  }

  lemma ColumnXBound(c: int, maxFrame: int, x: real, w: real)
    requires 0 <= c < maxFrame && 0.0 <= w && x == c as real * w
    ensures 0.0 <= x <= (maxFrame - 1) as real * w
  {
    assert (c as real) <= (maxFrame - 1) as real;
    RealMulMonotone(c as real, (maxFrame - 1) as real, w);
  }

  lemma RealMulMonotone(x: real, y: real, w: real)
    requires 0.0 <= x <= y && 0.0 <= w
    ensures 0.0 <= x * w <= y * w
  {
  }

  /**
   Big time steps do not catch up: every call that crosses the interval
   produces the same sprite, whatever the size of the step.
   */
  lemma NoCatchUp(data: AnimData, small: real, large: real, totalFrames: int, maxFrame: int)
    requires Advances(data, small) && small <= large
    requires totalFrames != 0 && maxFrame != 0
    ensures UpdateAnimData(data, large, totalFrames, maxFrame)
         == UpdateAnimData(data, small, totalFrames, maxFrame)
  {
  }

  /** Repeated animator calls, one per time step in `steps`. */
  function Animate(data: AnimData, steps: seq<real>, totalFrames: int, maxFrame: int): AnimData
    requires totalFrames != 0 && maxFrame != 0
    decreases |steps|
  {
    if |steps| == 0 then data
    else Animate(UpdateAnimData(data, steps[0], totalFrames, maxFrame), steps[1..], totalFrames, maxFrame)
  }

  /**
   When every step is at least one frame interval long, each call advances
   exactly one frame, so `n` calls move the counter `n` frames round the cycle.
   */
  lemma {:induction false} EachLongStepAdvancesOne(data: AnimData, steps: seq<real>, totalFrames: int, maxFrame: int)
    requires 0 <= data.frame < totalFrames && 0 < maxFrame
    requires 0.0 <= data.runningTime
    requires forall i :: 0 <= i < |steps| ==> steps[i] >= data.updateTime
    ensures Animate(data, steps, totalFrames, maxFrame).frame == (data.frame + |steps|) % totalFrames
    decreases |steps|
  {
    if |steps| == 0 {
      ModBelow(data.frame, totalFrames);
    } else {
      var next := FirstLongStep(data, steps, totalFrames, maxFrame);
      var rest := steps[1..];
      assert forall i :: 0 <= i < |rest| ==> rest[i] >= next.updateTime by {
        forall i | 0 <= i < |rest| ensures rest[i] >= next.updateTime {
          assert rest[i] == steps[i + 1];
        }
      }
      EachLongStepAdvancesOne(next, rest, totalFrames, maxFrame);
      ModShift(data.frame + 1, |rest|, totalFrames);
    }
  }

  /** The first of several steps at least an interval long: one frame on, timer at zero. */
  lemma FirstLongStep(data: AnimData, steps: seq<real>, totalFrames: int, maxFrame: int) returns (next: AnimData)
    requires 0 <= data.frame < totalFrames && 0 < maxFrame
    requires 0.0 <= data.runningTime && |steps| > 0 && steps[0] >= data.updateTime
    ensures Animate(data, steps, totalFrames, maxFrame) == Animate(next, steps[1..], totalFrames, maxFrame)
    ensures next.frame == (data.frame + 1) % totalFrames
    ensures 0 <= next.frame < totalFrames
    ensures next.runningTime == 0.0 && next.updateTime == data.updateTime
  {
    next := UpdateAnimData(data, steps[0], totalFrames, maxFrame);
    assert Advances(data, steps[0]);
    TruncMatchesEuclid(data.frame + 1, totalFrames);
  }
}
